=== FILE: README.md ===
# Yelp Top Places: a Dafny model of the request pipeline

The service answers `GET /top` by forwarding one search to the Yelp Fusion
business search, re-ranking the returned businesses by a Bayesian credibility
score, truncating to the requested number, and caching the response envelope
by query. A small helper, `find_item`, picks the cheapest option whose name
matches a preference.

This project models that pipeline as pure Dafny functions over immutable
datatypes and proves what each step promises:

- `scoring.dfy` (module `Scoring`): the Bayesian score
  `(v/(v+m))·R + (m/(v+m))·C` with C = 3.8 and m = 150, over exact reals, and
  the two-decimal rounding used as the sort key.
- `records.dfy` (module `Records`): the query, the raw upstream business (every
  field optional), the scored result and the response envelope; turning a raw
  business into a scored one with rating and review count defaulting to 0.
- `ranking.dfy` (module `Ranking`): a stable insertion sort by descending score
  and truncation to the display limit.
- `upstream.dfy` (module `Upstream`): outbound parameter shaping (radius cap,
  candidate pool, price without spaces) and the mapping of the call's outcome
  (a status with a body, a timeout, another transport failure) to the
  businesses or an HTTP error.
- `top_places.dfy` (module `TopPlaces`): the route's parameter bounds, the
  price-filter check, the cache in front of the upstream call, and the
  response envelope.
- `best_deal.dfy` (module `BestDeal`): `find_item` from `test.py`.
- `text.dfy` (module `Text`) and `wrappers.dfy` (module `Wrappers`): the Python
  string operations used (`replace`, `split`, `join`, `strip`, `lower`, `in`)
  and Option/Result.
- `real_arith.dfy` (module `RealArith`): `Min`, `Max`, `Abs` on reals and the
  small facts about weighted blends and fractions that the score proofs rest on.

The upstream service is a parameter of the pipeline: a function from the
outbound request to the outcome of the call. Each request step returns the
reply, the cache afterwards, and the request sent upstream (None when no call
was made), so "no upstream call" is stated directly.

Where the code departs from its own documentation, or behaves in a way a
reader might not expect, the model follows the code:

- The scorer's docstring (app.py:73) gives ~3.88 for 5.0 stars from 3 reviews
  and ~4.58 for 4.6 stars from 1200 reviews. The formula it implements gives
  65/17 ≈ 3.82 and 203/45 ≈ 4.51; `Scoring.DocumentedExamples` proves the exact
  values.
- The cache key (app.py:180) leaves out `limit`. Two requests that differ
  only in `limit` share an entry, so the second is served a response sized for
  the first; `TopPlaces.CachedResponseIgnoresLimit` proves that a cached
  response can hold more results than the new limit. The price filter enters
  the key exactly as typed, not normalised, so `"1,2"`, `"1, 2"` and `"2,1"` are three keys.
- The search term is required but may be empty: the route declares it with no
  length bound (app.py:154).

## Model

| member | source | states |
|---|---|---|
| Scoring.Score | app.py:63-80 | the score is a convex blend of rating and prior: it lies between min(R, C) and max(R, C), it exceeds C by the trust weight times R − C, and falls short of R by the prior weight times R − C |
| Scoring.TrustWeight | app.py:67-80 | the weight v/(v+m) of the observed rating is in [0, 1) |
| Scoring.PriorWeight | app.py:67-80 | the prior's weight m/(v+m) is in (0, 1] and is exactly the complement of the rating's weight |
| Scoring.TrustIncreasing | app.py:75-80 | more reviews give the observed rating strictly more weight |
| Scoring.DistanceToRating | app.py:75-80 | the score's distance from the rating is the prior's weight times the rating's distance from the prior |
| Scoring.ScoreWithoutReviews | app.py:75-80 | with zero reviews the score is exactly the prior 3.8, for every rating |
| Scoring.ScoreInStarRange | app.py:67-80 | a rating on the 0–5 scale gives a score on the 0–5 scale |
| Scoring.ScoreMonotone | app.py:64-80 | for more reviews the score strictly increases when R > C, strictly decreases when R < C, is constant when R = C, and never moves away from R |
| Scoring.ScoreApproachesRating | app.py:63-80 | for every tolerance there is a review count beyond which the score is within that tolerance of the rating |
| Scoring.Round2 | app.py:212 | the rounded score is a whole number of hundredths within 0.005 of the exact score |
| Scoring.Round2Monotone | app.py:212 | rounding preserves order, so sorting by the rounded score never puts a higher exact score after a strictly lower rounded one |
| Scoring.DocumentedExamples | app.py:73-80 | the exact scores of the two documented examples are 65/17 and 203/45, shown as 3.82 and 4.51 |
| Records.ToScored | app.py:199-218 | a missing rating or review count becomes 0; the score is a whole number of hundredths within 0.005 of the Bayesian score of those values, and lies in [0, 5] when the rating does; the price is passed through |
| Records.RoundedStarRange | app.py:212 | rounding a score on the 0–5 scale to hundredths keeps it on that scale |
| Records.ScoreAll | app.py:198-219 | one scored result per business, in upstream order |
| Records.UnreviewedScoresPrior | app.py:200-202 | a business without a review count (in particular one missing both fields) scores exactly the prior |
| Ranking.Insert | app.py:221 | one insertion step of the sort: the result is one longer and starts with the new element or with the old head |
| Ranking.InsertSorted | app.py:221 | inserting into a descending sequence keeps it descending |
| Ranking.InsertPermutes | app.py:221 | insertion adds exactly the one element and loses none |
| Ranking.SortDesc | app.py:221 | the sorted results are in descending score order and are a permutation of the input |
| Ranking.SortStable | app.py:221 | for every score, the results with that score appear in the same relative order as upstream |
| Ranking.InsertStable | app.py:221 | insertion places the new element before every element with the same score |
| Ranking.StableSortUnique | app.py:221 | two descending sequences that agree score by score on contents and order are equal, so the sort equals any stable descending sort |
| Ranking.Take | app.py:224 | `s[:n]` is the prefix of length min(n, \|s\|) |
| Ranking.TakeKeepsPrefix | app.py:224 | truncation keeps, for every score, a prefix of the results with that score |
| Ranking.TakeKeepsBest | app.py:221-224 | after sorting, every kept result scores at least as much as every dropped one |
| Ranking.Rank | app.py:221-224 | the re-ranked list has length min(\|s\|, n), is descending, is drawn from the input, dominates what it drops, and is stable |
| Upstream.Outbound | app.py:104-117 | radius is min(radius, 40000), pool is min(5·limit, 50), open-now is forwarded, a non-empty price is forwarded as exactly the filter with its spaces removed (no space left, every other character kept in order) and an empty or absent one is left out |
| Upstream.PoolCoversLimit | app.py:108-109 | for limits 1–50 and radii up to 40000 the pool is between the limit and 50 and the radius is unchanged |
| Upstream.Excerpt | app.py:138 | the diagnostic excerpt is a prefix of the body of at most 200 characters, the whole body when it is that short |
| Upstream.Fetch | app.py:127-147 | success exactly for status 200, yielding the `businesses` field or nothing; every error is 429, 502 or 504; other statuses become 502 carrying the code and exactly the first 200 characters of the body (`text[:200]`) |
| Upstream.FetchErrorCategories | app.py:127-147 | 429 exactly for an upstream 429, 504 exactly for a timeout, 502 exactly for any other status but 200 or any other transport failure |
| TopPlaces.InBounds | app.py:155-158 | the route's declared bounds: latitude in [−90, 90], longitude in [−180, 180], radius in [100, 40000], limit in [1, 50], all inclusive |
| TopPlaces.PricePieces | app.py:172 | the pieces of a price filter hold no comma and join back, with commas, to the filter without spaces |
| TopPlaces.PriceOk | app.py:170-177 | an absent or empty filter passes; otherwise every piece must be one of "1"–"4" |
| TopPlaces.PriceOkIffTierList | app.py:170-177 | a non-empty filter passes exactly when, spaces removed, it is tier digits 1–4 separated by single commas |
| TopPlaces.StrayCharacterRejected | app.py:170-177 | a filter holding any character other than 1–4, comma or space is rejected |
| TopPlaces.KeyOf | app.py:180 | the cache key is term, coordinates, radius, open-now flag and the price as typed (empty when absent); the limit is not part of it |
| TopPlaces.SameKey | app.py:180 | two queries share a key exactly when they agree on everything but the limit, an absent price counting as empty |
| TopPlaces.Evict | app.py:31 | expiry or eviction only drops entries and leaves the others unchanged |
| TopPlaces.Build | app.py:197-232 | count equals the number of results, which is min(\|businesses\|, limit); results are descending, drawn from the scored businesses, dominate the dropped ones and keep upstream order among equal scores; the envelope echoes term and center |
| TopPlaces.GetTopPlaces | app.py:152-237 | an upstream request is sent exactly when the bounds and price check pass and the key is not cached, and then the reply is the upstream's answer to that request; bounds violations give 422, a bad price 400, a hit the stored response; errors leave the cache unchanged; no other entry ever changes |
| TopPlaces.Answer | app.py:186-232 | on a miss the reply is an error exactly when the upstream call fails, and then it is the mapped upstream error itself; otherwise it is the response built from the returned businesses |
| TopPlaces.MissPassesUpstreamError | app.py:186-195 | a miss whose upstream call fails answers with that call's 429, 502 or 504 error and caches nothing |
| TopPlaces.Store | app.py:234-237 | an error leaves the cache as it was; a response is stored under the key; every other entry is kept |
| TopPlaces.MissStoresFreshResponse | app.py:186-237 | on a miss with a successful upstream call the reply is the freshly built response, stored under the key, with at most `limit` results |
| TopPlaces.RepeatIsCacheHit | app.py:180-184 | repeating a successful request returns the same response, makes no upstream call and leaves the cache as it was |
| TopPlaces.EvictedQueryRefetches | app.py:182-195 | after a query's entry has been dropped, the next valid request for it calls upstream again |
| TopPlaces.EmptyPriceIsNoPrice | app.py:170 | an empty price filter behaves exactly like an absent one |
| TopPlaces.CachedResponseIgnoresLimit | app.py:180-184 | a request that differs from a cached one only in its limit is served the cached response, even with more results than its limit |
| Text.Remove | app.py:117 | removing spaces leaves no space and keeps every other character with its multiplicity |
| Text.RemoveAppend | app.py:117 | removing a character from a concatenation removes it from each part, so the kept characters stay in their order |
| Text.Join | app.py:172 | reference definition of joining pieces with a separator, which pins down the `split(',')` at app.py:172 as its inverse (`Text.SplitJoin`, `Text.SplitNoSeparator`) |
| Text.Split | app.py:172 | splitting on commas gives at least one piece, no piece holds a comma, and joining the pieces gives the input back |
| Text.SplitJoin | app.py:172 | splitting a join of comma-free pieces gives the pieces back |
| Text.Strip | test.py:2 | stripping removes only whitespace from the two ends and leaves no whitespace at either end |
| Text.StripEmpty | test.py:2-4 | stripping leaves nothing exactly when the input is all whitespace |
| Text.Lower | test.py:2 | lower-casing keeps the length, turns each ASCII capital into its small letter (code point + 32), leaves no ASCII capital and keeps every other character in place |
| Text.Contains | test.py:10 | `pref in key`, scanning the key from the left; `Text.ContainsOccurs` characterises it |
| Text.ContainsOccurs | test.py:10 | the left-to-right substring scan succeeds exactly when the pattern occurs at some index |
| BestDeal.Preference | test.py:2 | `(preference or "").strip().lower()`; `BestDeal.BlankPreference` shows it is empty for a blank preference |
| BestDeal.Qualifies | test.py:10 | an option qualifies when its value is a number and its lower-cased key contains the preference |
| BestDeal.MixedCaseKeyQualifies | test.py:10 | a key in mixed case qualifies for the lower-case preference it contains, as `pref in key.lower()` does |
| BestDeal.FindItem | test.py:1-13 | None exactly when the preference is blank or no option qualifies; otherwise the key and value of a qualifying option whose value is least among the qualifying ones, with every earlier qualifying option strictly dearer |
| BestDeal.CheapestMatch | test.py:6-13 | for a non-blank preference: None exactly when no option has a numeric value and a key containing it, otherwise the first cheapest such option |
| BestDeal.Cheapest | test.py:9-11 | the scan keeps the first of the cheapest marked options, replacing its choice only on a strictly lower value; None exactly when nothing is marked |
| BestDeal.BestIsUnique | test.py:10 | at most one option is the first cheapest qualifying one, so the answer is fixed |
| BestDeal.BlankPreference | test.py:2-4 | an absent, empty or whitespace-only preference normalises to nothing |

## Left out

- Concurrency: each request is modelled as one atomic step on the cache. The handler is a plain `def` (app.py:153) that the web framework runs on a thread pool, and the cache (app.py:31) is shared without a lock, so two overlapping identical requests can both miss at app.py:183 and both call upstream at app.py:187; `TopPlaces.RepeatIsCacheHit` is about requests that do not overlap.

- Records.Business: only missing fields are modelled; a field that is present but null or of the wrong type makes the handler fail with 500 and cache nothing (a null `price` acts like a missing one).
- Scoring.Score: computed over exact reals, not IEEE doubles; the review count is a natural number, so negative counts are assumed absent. app.py does not guard against them: −1 reviews would put the score outside the star range, and −150 would divide by zero.
- Scoring.Round2: rounds half up on exact reals; Python's `round(x, 2)` rounds the binary double half to even, which can differ on values that print as exact halves.
- The cache key is a tuple of the fields, not the formatted string; the string formatting of the coordinates (for instance `-0.0` versus `0.0`) and the `|` separator are not modelled.
- TopPlaces.Evict: the cache's 600-second expiry and 500-entry limit are library behaviour; the model lets any set of entries be dropped between requests.
- The HTTP call itself: headers, bearer token, the 10-second timeout and JSON decoding (a non-JSON body, a non-object body, or a null `businesses` field) are not modelled; the call is an input outcome.
- Error details are a datatype naming the cause rather than the literal messages.
- Display-only fields: `distance` (truncated to an int) and the joined address are not part of the scored result.
- Query parameter defaults (radius 5000, limit 10, open-now false, no price) are applied by the web framework before the handler; the model starts from the parsed query.
- The HTML page, the `/health` endpoint, the required-API-key startup check and the interactive console are presentation and I/O.
- BestDeal.FindItem: values are finite numbers (no infinity or NaN), a bool counts as a number (0 or 1) as in Python, and conversion of very large integers to float is exact; the progress message it prints is not modelled.
- Text.Lower: lower-cases ASCII letters only; Python's `str.lower` also maps other Unicode letters.

=== FILE: best_deal.dfy ===
/** `find_item`: among named options, the cheapest one whose name contains a
    preference, ignoring case and surrounding whitespace. Options are the
    dictionary's (key, value) pairs in iteration order. */
module BestDeal {
  import opened Wrappers
  import Text

  /** A dictionary value: a number (an int, a float, or a bool, which Python
      counts as an int) or anything else. */
  datatype Value = Num(amount: real) | NonNum

  type Options = seq<(string, Value)>

  /** The normalised preference: stripped, then lower-cased; absent counts as empty. */
  function Preference(preference: Option<string>): string
  {
    Text.Lower(Text.Strip(preference.GetOr("")))
  }

  /** The option at index `i` has a numeric value and a key whose lower-cased
      form contains `pref`. */
  predicate Qualifies(options: Options, pref: string, i: int)
    requires 0 <= i < |options|
  {
    options[i].1.Num? && Text.Contains(Text.Lower(options[i].0), pref)
  }

  /** Which options qualify for `pref`, position by position. */
  function Marks(options: Options, pref: string): (marks: seq<bool>)
    ensures Eligible(options, marks)
    ensures forall i :: 0 <= i < |options| ==> marks[i] == Qualifies(options, pref, i)
  {
    seq(|options|, i requires 0 <= i < |options| => Qualifies(options, pref, i))
  }

  /** `marks` has one entry per option and marks only options with a number. */
  predicate Eligible(options: Options, marks: seq<bool>)
  {
    && |marks| == |options|
    && forall i :: 0 <= i < |options| && marks[i] ==> options[i].1.Num?
  }

  /** Among the first `n` options, index `i` is marked, has the least value
      of all marked ones, and every earlier marked option is strictly dearer. */
  predicate IsCheapest(options: Options, marks: seq<bool>, i: int, n: int)
    requires Eligible(options, marks) && 0 <= n <= |options|
  {
    && 0 <= i < n
    && marks[i]
    && (forall j :: 0 <= j < n && marks[j] ==> options[i].1.amount <= options[j].1.amount)
    && (forall j :: 0 <= j < i && marks[j] ==> options[i].1.amount < options[j].1.amount)
  }

  /** Among the first `n` options, index `i` qualifies, has the least value
      of all qualifying ones, and every earlier qualifying option is strictly
      dearer. */
  predicate IsBestAmong(options: Options, pref: string, i: int, n: int)
    requires 0 <= n <= |options|
  {
    IsCheapest(options, Marks(options, pref), i, n)
  }

  /** No option qualifies for `pref`. */
  ghost predicate NoneQualifies(options: Options, pref: string)
  {
    forall j :: 0 <= j < |options| ==> !Qualifies(options, pref, j)
  }

  /** (`key`, `amount`) is the option that is best among all options. */
  ghost predicate IsAnswer(options: Options, pref: string, key: string, amount: real)
  {
    exists i :: IsBestAmong(options, pref, i, |options|) && options[i].0 == key && options[i].1 == Num(amount)
  }

  /** `find_item`. Whether an option qualifies depends on that option alone,
      so deciding it for every option up front and then scanning, as here,
      gives what `find_item`'s single loop gives. */
  method FindItem(options: Options, preference: Option<string>) returns (best: Option<(string, real)>)
    ensures best.Some? ==> IsAnswer(options, Preference(preference), best.value.0, best.value.1)
    ensures best.None? <==> Preference(preference) == [] || NoneQualifies(options, Preference(preference))
  {
    var pref := Preference(preference);
    if pref == [] {
      return None;
    }
    best := CheapestMatch(options, pref);
  }

  /** The cheapest option qualifying for `pref`, the first one on a tie. */
  method CheapestMatch(options: Options, pref: string) returns (best: Option<(string, real)>)
    ensures best.Some? ==> IsAnswer(options, pref, best.value.0, best.value.1)
    ensures best.None? <==> NoneQualifies(options, pref)
  {
    best := Cheapest(options, Marks(options, pref));
    MarksAgree(options, pref, best);
  }

  /** What the scan finds over the marks is what it finds over the
      qualifying options. */
  lemma MarksAgree(options: Options, pref: string, best: Option<(string, real)>)
    requires best.None? <==> forall j :: 0 <= j < |options| ==> !Marks(options, pref)[j]
    requires best.Some? ==> exists i ::
               && IsCheapest(options, Marks(options, pref), i, |options|)
               && options[i].0 == best.value.0 && options[i].1 == Num(best.value.1)
    ensures best.Some? ==> IsAnswer(options, pref, best.value.0, best.value.1)
    ensures best.None? <==> NoneQualifies(options, pref)
  {
    var marks := Marks(options, pref);
    if best.None? {
      forall j | 0 <= j < |options|
        ensures !Qualifies(options, pref, j)
      {
        assert !marks[j];
      }
    } else {
      var j :| 0 <= j < |options| && marks[j];
      assert Qualifies(options, pref, j);
    }
  }

  /** Scans the options once, keeping the cheapest marked one seen so far
      and replacing it only when a strictly cheaper one appears. */
  method Cheapest(options: Options, marks: seq<bool>) returns (best: Option<(string, real)>)
    requires Eligible(options, marks)
    ensures best.Some? ==> exists i ::
              && IsCheapest(options, marks, i, |options|)
              && options[i].0 == best.value.0 && options[i].1 == Num(best.value.1)
    ensures best.None? <==> forall j :: 0 <= j < |options| ==> !marks[j]
  {
    best := None;
    ghost var at := -1;
    var n := 0;
    while n < |options|
      invariant 0 <= n <= |options|
      invariant best.None? ==> forall j :: 0 <= j < n ==> !marks[j]
      invariant best.Some? ==> IsCheapest(options, marks, at, n)
      invariant best.Some? ==> options[at].0 == best.value.0 && options[at].1 == Num(best.value.1)
    {
      var (key, value) := options[n];
      if marks[n] && (best.None? || value.amount < best.value.1) {
        if best.None? {
          FirstBest(options, marks, n);
        } else {
          CheaperBest(options, marks, at, n);
        }
        best := Some((key, value.amount));
        at := n;
      } else if best.Some? {
        KeepBest(options, marks, at, n);
      } else {
        NoneYet(options, marks, n);
      }
      n := n + 1;
    }
  }

  /** The first marked option is the cheapest among the options up to it. */
  lemma FirstBest(options: Options, marks: seq<bool>, n: int)
    requires Eligible(options, marks) && 0 <= n < |options| && marks[n]
    requires forall j :: 0 <= j < n ==> !marks[j]
    ensures IsCheapest(options, marks, n, n + 1)
  {
  }

  /** An unmarked option extends a run of unmarked ones. */
  lemma NoneYet(options: Options, marks: seq<bool>, n: int)
    requires Eligible(options, marks) && 0 <= n < |options| && !marks[n]
    requires forall j :: 0 <= j < n ==> !marks[j]
    ensures forall j :: 0 <= j < n + 1 ==> !marks[j]
  {
  }

  /** A marked option strictly cheaper than the cheapest so far replaces it. */
  lemma CheaperBest(options: Options, marks: seq<bool>, at: int, n: int)
    requires Eligible(options, marks) && 0 <= n < |options| && IsCheapest(options, marks, at, n)
    requires marks[n] && options[n].1.amount < options[at].1.amount
    ensures IsCheapest(options, marks, n, n + 1)
  {
  }

  /** An unmarked option, or one no cheaper, leaves the cheapest in place. */
  lemma KeepBest(options: Options, marks: seq<bool>, at: int, n: int)
    requires Eligible(options, marks) && 0 <= n < |options| && IsCheapest(options, marks, at, n)
    requires marks[n] ==> options[at].1.amount <= options[n].1.amount
    ensures IsCheapest(options, marks, at, n + 1)
  {
  }

  /** At most one index is the first cheapest qualifying option, so the
      contract of `FindItem` fixes its answer. */
  lemma BestIsUnique(options: Options, pref: string, i: int, k: int)
    requires IsBestAmong(options, pref, i, |options|) && IsBestAmong(options, pref, k, |options|)
    ensures i == k
  {
  }

  /** An absent, empty or whitespace-only preference normalises to nothing,
      so `FindItem` answers None for it. */
  lemma BlankPreference(preference: Option<string>)
    requires preference.None? || Text.AllSpace(preference.value)
    ensures Preference(preference) == []
  {
    Text.StripEmpty(preference.GetOr(""));
  }

  /** Matching ignores the key's case: "Pizza Hut" qualifies for "pizza". */
  lemma MixedCaseKeyQualifies()
    ensures Qualifies([("Pizza Hut", Num(12.0))], "pizza", 0)
  {
    assert Text.Lower("Pizza Hut")[..5] == "pizza";
  }
}

=== FILE: ranking.dfy ===
/** Re-ranking: a stable sort of scored results by descending score (Python's
    `list.sort(key=..., reverse=True)`, which keeps equal keys in their original
    order) followed by truncation to the display limit. */
module Ranking {
  import opened Records

  /** Scores never increase from one position to a later one. */
  predicate SortedDesc(s: seq<ScoredResult>)
  {
    forall i, j :: 0 <= i < j < |s| ==> s[i].score >= s[j].score
  }

  /** The results of `s` whose score is `k`, in their order in `s`. */
  function WithScore(s: seq<ScoredResult>, k: real): seq<ScoredResult>
  {
    if s == [] then []
    else (if s[0].score == k then [s[0]] else []) + WithScore(s[1..], k)
  }

  /** Inserts `x` in front of the first result that scores no more than it,
      behind every earlier result that scores strictly more. */
  function Insert(x: ScoredResult, s: seq<ScoredResult>): (r: seq<ScoredResult>)
    ensures |r| == |s| + 1
    ensures r[0] == x || (s != [] && r[0] == s[0])
  {
    if s == [] || x.score >= s[0].score then [x] + s
    else [s[0]] + Insert(x, s[1..])
  }

  /** Inserting into a descending sequence keeps it descending. */
  lemma {:induction false} InsertSorted(x: ScoredResult, s: seq<ScoredResult>)
    requires SortedDesc(s)
    ensures SortedDesc(Insert(x, s))
    decreases |s|
  {
    if s == [] || x.score >= s[0].score {
      ConsSorted(x, s);
    } else {
      var tail := s[1..];
      assert SortedDesc(tail);
      InsertSorted(x, tail);
      ConsSorted(s[0], Insert(x, tail));
    }
  }

  /** Inserting adds `x` and loses nothing. */
  lemma {:induction false} InsertPermutes(x: ScoredResult, s: seq<ScoredResult>)
    ensures multiset(Insert(x, s)) == multiset(s) + multiset{x}
    decreases |s|
  {
    if s != [] && x.score < s[0].score {
      InsertPermutes(x, s[1..]);
      assert s == [s[0]] + s[1..];
    }
  }

  /** Prepending a result that scores at least as much as the head keeps a
      sequence descending. */
  lemma ConsSorted(h: ScoredResult, t: seq<ScoredResult>)
    requires SortedDesc(t) && (t == [] || h.score >= t[0].score)
    ensures SortedDesc([h] + t)
  {
    var u := [h] + t;
    forall i, j | 0 <= i < j < |u|
      ensures u[i].score >= u[j].score
    {
      if i == 0 && j > 1 {
        assert u[j] == t[j - 1] && t[0].score >= t[j - 1].score;
      }
    }
  }

  /** Insertion sort: sorts the tail, then inserts the head. */
  function SortDesc(s: seq<ScoredResult>): (r: seq<ScoredResult>)
    ensures SortedDesc(r)
    ensures multiset(r) == multiset(s)
    ensures |r| == |s|
  {
    if s == [] then []
    else
      var sortedTail := SortDesc(s[1..]);
      SortStep(s, sortedTail);
      Insert(s[0], sortedTail)
  }

  /** Inserting the head into a sorted permutation of the tail sorts the
      whole sequence. */
  lemma SortStep(s: seq<ScoredResult>, t: seq<ScoredResult>)
    requires s != [] && SortedDesc(t) && multiset(t) == multiset(s[1..])
    ensures SortedDesc(Insert(s[0], t))
    ensures multiset(Insert(s[0], t)) == multiset(s)
  {
    InsertSorted(s[0], t);
    InsertPermutes(s[0], t);
    assert s == [s[0]] + s[1..];
  }

  /** `s[:n]` for a non-negative `n`. */
  function Take(s: seq<ScoredResult>, n: nat): (r: seq<ScoredResult>)
    ensures |r| == if n < |s| then n else |s|
    ensures r == s[..|r|]
  {
    if n < |s| then s[..n] else s
  }

  /** Sorts by descending score, stably, and keeps the first `n` results:
      the kept results are in descending order, drawn from the input, score
      at least as much as every dropped result, and keep the input order
      among equal scores. */
  function Rank(s: seq<ScoredResult>, n: nat): (r: seq<ScoredResult>)
    ensures |r| == if n < |s| then n else |s|
    ensures SortedDesc(r)
    ensures multiset(r) <= multiset(s)
    ensures forall x, y :: x in multiset(r) && y in multiset(s) - multiset(r) ==> x.score >= y.score
    ensures forall k :: WithScore(r, k) <= WithScore(s, k)
  {
    RankKeepsBest(s, n);
    RankStable(s, n);
    Take(SortDesc(s), n)
  }

  /** The truncated sort is descending, drawn from the input, and beats
      everything it drops. */
  lemma RankKeepsBest(s: seq<ScoredResult>, n: nat)
    ensures SortedDesc(Take(SortDesc(s), n))
    ensures multiset(Take(SortDesc(s), n)) <= multiset(s)
    ensures forall x, y :: x in multiset(Take(SortDesc(s), n)) && y in multiset(s) - multiset(Take(SortDesc(s), n)) ==> x.score >= y.score
  {
    TakeKeepsBest(SortDesc(s), n);
  }

  /** The truncated sort keeps, for every score, a prefix of the input's
      results with that score. */
  lemma RankStable(s: seq<ScoredResult>, n: nat)
    ensures forall k :: WithScore(Take(SortDesc(s), n), k) <= WithScore(s, k)
  {
    forall k
      ensures WithScore(Take(SortDesc(s), n), k) <= WithScore(s, k)
    {
      TakeKeepsPrefix(SortDesc(s), n, k);
      SortStable(s, k);
    }
  }

  // ---------------------------------------------------------------------------
  // Stability
  // ---------------------------------------------------------------------------

  lemma {:induction false} WithScoreAppend(a: seq<ScoredResult>, b: seq<ScoredResult>, k: real)
    ensures WithScore(a + b, k) == WithScore(a, k) + WithScore(b, k)
    decreases |a|
  {
    if a != [] {
      assert (a + b)[1..] == a[1..] + b;
      WithScoreAppend(a[1..], b, k);
    } else {
      assert a + b == b;
    }
  }

  /** Inserting `x` keeps it in front of every result with the same score. */
  lemma {:induction false} InsertStable(x: ScoredResult, s: seq<ScoredResult>, k: real)
    ensures WithScore(Insert(x, s), k) == WithScore([x] + s, k)
    decreases |s|
  {
    if s == [] || x.score >= s[0].score {
    } else {
      var rest := s[1..];
      InsertStable(x, rest, k);
      assert s == [s[0]] + rest;
      calc {
        WithScore(Insert(x, s), k);
        WithScore([s[0]] + Insert(x, rest), k);
        { WithScoreAppend([s[0]], Insert(x, rest), k); }
        WithScore([s[0]], k) + WithScore(Insert(x, rest), k);
        WithScore([s[0]], k) + WithScore([x] + rest, k);
        { WithScoreAppend([x], rest, k); }
        WithScore([s[0]], k) + WithScore([x], k) + WithScore(rest, k);
        { SwapDistinct(s[0], x, k); }
        WithScore([x], k) + WithScore([s[0]], k) + WithScore(rest, k);
        { WithScoreAppend([s[0]], rest, k); }
        WithScore([x], k) + WithScore(s, k);
        { WithScoreAppend([x], s, k); }
        WithScore([x] + s, k);
      }
    }
  }

  /** Of two results with different scores at most one carries `k`, so their
      order does not matter to `WithScore`. */
  lemma SwapDistinct(a: ScoredResult, b: ScoredResult, k: real)
    requires a.score != b.score
    ensures WithScore([a], k) + WithScore([b], k) == WithScore([b], k) + WithScore([a], k)
  {
  }

  /** The sort is stable: for every score, the results with that score appear
      in the same relative order as in the input. */
  lemma {:induction false} SortStable(s: seq<ScoredResult>, k: real)
    ensures WithScore(SortDesc(s), k) == WithScore(s, k)
    decreases |s|
  {
    if s != [] {
      SortStable(s[1..], k);
      InsertStable(s[0], SortDesc(s[1..]), k);
      WithScoreAppend([s[0]], s[1..], k);
      WithScoreAppend([s[0]], SortDesc(s[1..]), k);
      assert s == [s[0]] + s[1..];
    }
  }

  /** Truncation keeps, for every score, a prefix of the results with that score. */
  lemma TakeKeepsPrefix(s: seq<ScoredResult>, n: nat, k: real)
    ensures WithScore(Take(s, n), k) <= WithScore(s, k)
  {
    var t := Take(s, n);
    assert s == t + s[|t|..];
    WithScoreAppend(t, s[|t|..], k);
  }

  // ---------------------------------------------------------------------------
  // Stable sorting is unique
  // ---------------------------------------------------------------------------

  lemma {:induction false} WithScoreMembers(s: seq<ScoredResult>, k: real)
    ensures forall x :: x in WithScore(s, k) <==> x in s && x.score == k
    decreases |s|
  {
    if s != [] {
      WithScoreMembers(s[1..], k);
      assert s == [s[0]] + s[1..];
    }
  }

  lemma {:induction false} WithScoreOfSortedHead(s: seq<ScoredResult>)
    requires s != [] && SortedDesc(s)
    ensures WithScore(s, s[0].score) != []
    ensures WithScore(s, s[0].score)[0] == s[0]
  {
  }

  /** Any two descending sequences that agree, score by score, on which
      results carry that score and in what order, are equal. Hence the
      insertion sort computes exactly the result of any stable descending
      sort, Python's included. */
  lemma {:induction false} StableSortUnique(a: seq<ScoredResult>, b: seq<ScoredResult>)
    requires SortedDesc(a) && SortedDesc(b)
    requires forall k :: WithScore(a, k) == WithScore(b, k)
    ensures a == b
    decreases |a|
  {
    if a == [] || b == [] {
      if a != [] {
        WithScoreOfSortedHead(a);
      } else if b != [] {
        WithScoreOfSortedHead(b);
      }
    } else {
      var ka, kb := a[0].score, b[0].score;
      WithScoreOfSortedHead(a);
      WithScoreOfSortedHead(b);
      WithScoreMembers(a, kb);
      WithScoreMembers(b, ka);
      assert a[0] in WithScore(b, ka);
      assert b[0] in WithScore(a, kb);
      assert kb >= ka by {
        var i :| 0 <= i < |b| && b[i] == a[0];
      }
      assert ka >= kb by {
        var i :| 0 <= i < |a| && a[i] == b[0];
      }
      assert a[0] == b[0];
      forall k
        ensures WithScore(a[1..], k) == WithScore(b[1..], k)
      {
        assert a == [a[0]] + a[1..];
        assert b == [b[0]] + b[1..];
        WithScoreAppend([a[0]], a[1..], k);
        WithScoreAppend([b[0]], b[1..], k);
        assert WithScore(a, k) == WithScore([a[0]], k) + WithScore(a[1..], k);
        assert WithScore(b, k) == WithScore([a[0]], k) + WithScore(b[1..], k);
        var h := WithScore([a[0]], k);
        assert WithScore(a[1..], k) == WithScore(a, k)[|h|..];
        assert WithScore(b[1..], k) == WithScore(b, k)[|h|..];
      }
      StableSortUnique(a[1..], b[1..]);
      assert a == [a[0]] + a[1..];
      assert b == [b[0]] + b[1..];
    }
  }

  // ---------------------------------------------------------------------------
  // Truncation keeps the best results
  // ---------------------------------------------------------------------------

  /** Truncating a descending sequence keeps a descending sub-multiset
      whose results score at least as much as every result it drops. */
  lemma TakeKeepsBest(s: seq<ScoredResult>, n: nat)
    requires SortedDesc(s)
    ensures SortedDesc(Take(s, n))
    ensures multiset(Take(s, n)) <= multiset(s)
    ensures forall x, y :: x in multiset(Take(s, n)) && y in multiset(s) - multiset(Take(s, n)) ==> x.score >= y.score
  {
    var t := Take(s, n);
    var rest := s[|t|..];
    assert s == t + rest;
    assert multiset(s) - multiset(t) == multiset(rest);
    PrefixDominates(s, |t|);
  }

  /** In a descending sequence every result before position `k` scores at
      least as much as every result from `k` on. */
  lemma PrefixDominates(s: seq<ScoredResult>, k: nat)
    requires SortedDesc(s) && k <= |s|
    ensures forall x, y :: x in s[..k] && y in s[k..] ==> x.score >= y.score
  {
    forall x: ScoredResult, y: ScoredResult | x in s[..k] && y in s[k..]
      ensures x.score >= y.score
    {
      var i :| 0 <= i < k && s[..k][i] == x;
      var j :| 0 <= j < |s| - k && s[k..][j] == y;
      assert s[i] == x && s[k + j] == y;
    }
  }
}

=== FILE: real_arith.dfy ===
/** Facts about real arithmetic the score's proofs rest on. Each is stated
    over plain variables, with every product taken of two variables, so that
    it is proved in a small context and used by matching its terms. */
module RealArith {

  function Min(a: real, b: real): real { if a <= b then a else b }
  function Max(a: real, b: real): real { if a <= b then b else a }
  function Abs(a: real): real { if a < 0.0 then -a else a }

  lemma SameDenominator(a: real, b: real, d: real)
    requires d > 0.0 && d == a + b
    ensures a / d + b / d == 1.0
  {
  }

  /** A fraction w in [0, 1) of d lies between 0 and d. */
  lemma BlendBetween(w: real, d: real)
    requires 0.0 <= w < 1.0
    ensures d >= 0.0 ==> 0.0 <= w * d <= d
    ensures d <= 0.0 ==> d <= w * d <= 0.0
  {
    if d >= 0.0 {
      assert d - w * d == (1.0 - w) * d;
    } else {
      assert w * d - d == (1.0 - w) * (-d);
    }
  }

  /** The convex blend w·r + p·c, p = 1 − w, of r and c (d = r − c) lies
      w·d above c and p·d below r, so between the two. */
  lemma Blend(w: real, p: real, r: real, c: real, d: real)
    requires 0.0 <= w < 1.0 && p == 1.0 - w && d == r - c
    ensures w * r + p * c - c == w * d
    ensures r - (w * r + p * c) == p * d
    ensures Min(r, c) <= w * r + p * c <= Max(r, c)
  {
    assert w * d == w * r - w * c;
    assert p * d == p * r - p * c;
    assert p * c == c - w * c;
    assert p * r == r - w * r;
    BlendBetween(w, d);
  }

  /** Scaling by a positive factor keeps a strict order. */
  lemma ScaleStrict(a: real, b: real, d: real)
    requires a < b && d > 0.0
    ensures a * d < b * d
  {
    assert b * d - a * d == (b - a) * d;
  }

  /** Scaling by a negative factor reverses a strict order. */
  lemma ScaleStrictNegative(a: real, b: real, d: real)
    requires a < b && d < 0.0
    ensures a * d > b * d
  {
    assert a * d - b * d == (b - a) * (-d);
  }

  /** Two points c + w·d with weights w1 < w2 in [0, 1) and d > 0: the
      heavier weight gives the higher point, and neither passes c + d. */
  lemma BlendsAbove(s1: real, s2: real, c: real, w1: real, w2: real, d: real)
    requires 0.0 <= w1 < w2 < 1.0 && d > 0.0
    requires s1 - c == w1 * d && s2 - c == w2 * d
    ensures s1 < s2 <= c + d
  {
    ScaleStrict(w1, w2, d);
    BlendBetween(w2, d);
  }

  /** Two points c + w·d with weights w1 < w2 in [0, 1) and d < 0: the
      heavier weight gives the lower point, and neither passes c + d. */
  lemma BlendsBelow(s1: real, s2: real, c: real, w1: real, w2: real, d: real)
    requires 0.0 <= w1 < w2 < 1.0 && d < 0.0
    requires s1 - c == w1 * d && s2 - c == w2 * d
    ensures s1 > s2 >= c + d
  {
    BlendFloor(s2, c, w2, d);
    ScaleStrictNegative(w1, w2, d);
  }

  lemma BlendFloor(s: real, c: real, w: real, d: real)
    requires 0.0 <= w < 1.0 && d < 0.0
    requires s - c == w * d
    ensures s >= c + d
  {
    BlendBetween(w, d);
  }

  /** a/q1 < b/q2 for q1 = a + m and q2 = b + m: a/(a + m) grows with a for
      a positive m. */
  lemma WeightIncreasing(a: real, b: real, m: real, q1: real, q2: real)
    requires 0.0 <= a < b && m > 0.0 && q1 == a + m && q2 == b + m
    ensures a / q1 < b / q2
  {
    CrossIncreasing(a, b, m, q1, q2);
    FractionsOrdered(a, q1, b, q2);
  }

  lemma CrossIncreasing(a: real, b: real, m: real, q1: real, q2: real)
    requires 0.0 <= a < b && m > 0.0 && q1 == a + m && q2 == b + m
    ensures a * q2 < b * q1
  {
    assert a * q2 == a * b + a * m;
    assert b * q1 == a * b + b * m;
    ScaleStrict(a, b, m);
  }

  /** p/q < r/s for positive denominators when p·s < r·q. */
  lemma FractionsOrdered(p: real, q: real, r: real, s: real)
    requires q > 0.0 && s > 0.0
    requires p * s < r * q
    ensures p / q < r / s
  {
    assert p / q == (p * s) / (q * s);
    assert r / s == (r * q) / (q * s);
  }

  /** |p·d| = p·|d| for a non-negative p. */
  lemma AbsScaled(p: real, d: real)
    requires p >= 0.0
    ensures Abs(p * d) == p * Abs(d)
  {
    if d < 0.0 {
      assert p * (-d) == -(p * d);
    } else {
      assert p * d >= 0.0;
    }
  }

  /** a/d < t when a < d·t for a positive denominator. */
  lemma FractionBelow(a: real, d: real, t: real)
    requires d > 0.0 && a < d * t
    ensures a / d < t
  {
    assert a / d * d == a;
    assert (t - a / d) * d == t * d - a;
  }

  lemma DivMul(m: real, d: real, g: real)
    requires d > 0.0
    ensures (m / d) * g == (m * g) / d
  {
  }

  /** Past the bound (m·g)/t, x + m scaled by t exceeds m·g. */
  lemma BeyondBound(x: real, m: real, d: real, g: real, t: real, bound: real)
    requires t > 0.0 && m > 0.0 && d == x + m
    requires bound == m * g / t && x > bound
    ensures m * g < d * t
  {
    assert bound * t == m * g;
    ScaleStrict(bound, x, t);
    assert d * t == x * t + m * t;
    assert m * t > 0.0;
  }

  /** (m/(x + m))·g < t once x exceeds (m·g)/t. */
  lemma FarEnough(p: real, x: real, m: real, d: real, g: real, t: real, bound: real)
    requires t > 0.0 && m > 0.0 && x >= 0.0 && d == x + m
    requires p == m / d && bound == m * g / t && x > bound
    ensures p * g < t
  {
    BeyondBound(x, m, d, g, t, bound);
    FractionBelow(m * g, d, t);
    DivMul(m, d, g);
  }
}

=== FILE: records.dfy ===
/** The records that flow through one request: what the upstream search
    returns for a business, the scored result the service sends back, and
    the response envelope. */
module Records {
  import opened Wrappers
  import Scoring
  import RealArith

  /** The query parameters of one search request, after the web framework has
      parsed them (a missing optional parameter already holds its default). */
  datatype Query = Query(
    term: string,
    lat: real,
    lng: real,
    radius: int,
    limit: int,
    openNow: bool,
    price: Option<string>)

  /** One business as the upstream search returns it. Every field may be
      missing from the upstream JSON object. */
  datatype Business = Business(
    id: Option<string>,
    name: Option<string>,
    rating: Option<real>,
    reviewCount: Option<nat>,
    price: Option<string>,
    url: Option<string>)

  /** One entry of the response (`BusinessResult`). */
  datatype ScoredResult = ScoredResult(
    name: string,
    rating: real,
    reviewCount: nat,
    score: real,
    price: Option<string>,
    url: string,
    yelpId: string)

  /** Why a request failed, as reported in the error detail: the first four
      are raised by the upstream client, the last two by the route's own
      checks. */
  datatype Detail =
    | RateLimited
    | UpstreamStatus(code: int, excerpt: string)
    | UpstreamTimeout
    | RequestFailed(reason: string)
    | InvalidPrice
    | InvalidParameters

  /** An error answered to the caller (`HTTPException`): a status and its detail. */
  datatype HttpError = HttpError(status: int, detail: Detail)

  /** The response envelope (`TopPlacesResponse`). */
  datatype Response = Response(
    term: string,
    lat: real,
    lng: real,
    radius: int,
    count: int,
    results: seq<ScoredResult>,
    attribution: string)

  const Attribution: string := "Results powered by Yelp"

  /** Turns a raw business into a scored result: a missing rating or review
      count counts as 0, and the score is the Bayesian score of those two
      values rounded to two decimals. */
  function ToScored(b: Business): (r: ScoredResult)
    ensures r.rating == b.rating.GetOr(0.0) && r.reviewCount == b.reviewCount.GetOr(0)
    ensures RealArith.Abs(r.score - Scoring.Score(r.rating, r.reviewCount)) <= 0.005
    ensures (r.score * 100.0).Floor as real == r.score * 100.0
    ensures 0.0 <= r.rating <= 5.0 ==> 0.0 <= r.score <= 5.0
    ensures r.price == b.price
  {
    var rating := b.rating.GetOr(0.0);
    var reviews := b.reviewCount.GetOr(0);
    RoundedStarRange(Scoring.Score(rating, reviews));
    ScoredResult(
      b.name.GetOr("Unknown"),
      rating,
      reviews,
      Scoring.Round2(Scoring.Score(rating, reviews)),
      b.price,
      b.url.GetOr(""),
      b.id.GetOr(""))
  }

  /** A score on the 0–5 scale stays on it after rounding. */
  lemma RoundedStarRange(x: real)
    ensures 0.0 <= x <= 5.0 ==> 0.0 <= Scoring.Round2(x) <= 5.0
  {
    if 0.0 <= x <= 5.0 {
      Scoring.Round2Monotone(0.0, x);
      Scoring.Round2Monotone(x, 5.0);
      assert Scoring.Round2(0.0) == 0.0;
      assert Scoring.Round2(5.0) == 5.0;
    }
  }

  /** Scores every business, keeping the upstream order. */
  function ScoreAll(bs: seq<Business>): (rs: seq<ScoredResult>)
    ensures |rs| == |bs|
    ensures forall i :: 0 <= i < |bs| ==> rs[i] == ToScored(bs[i])
  {
    seq(|bs|, i requires 0 <= i < |bs| => ToScored(bs[i]))
  }

  /** A business with no review count (missing or zero) scores exactly the
      prior rating, whatever its rating; in particular one missing both
      fields does. */
  lemma UnreviewedScoresPrior(b: Business)
    requires b.reviewCount.None? || b.reviewCount == Some(0)
    ensures ToScored(b).score == Scoring.PriorRating
  {
    Scoring.ScoreWithoutReviews(b.rating.GetOr(0.0));
  }
}

=== FILE: scoring.dfy ===
/** The Bayesian credibility score (`calculate_bayesian_score`) and the
    two-decimal rounding applied before results are sorted. All arithmetic is
    over exact reals. */
module Scoring {
  import opened RealArith

  /** C: the rating assumed for a business nobody has reviewed yet. */
  const PriorRating: real := 3.8

  /** m: the review count at which the observed rating and the prior weigh equally. */
  const Damping: nat := 150

  /** How far `x` lies above the prior (below it when negative). */
  function Deviation(x: real): real
  {
    x - PriorRating
  }

  /** The weight v/(v+m) the observed rating receives after `reviews` reviews. */
  function TrustWeight(reviews: nat): (w: real)
    ensures 0.0 <= w < 1.0
  {
    reviews as real / (reviews as real + Damping as real)
  }

  /** The weight m/(v+m) the prior keeps after `reviews` reviews; it is the
      complement of the observed rating's weight. */
  function PriorWeight(reviews: nat): (p: real)
    ensures 0.0 < p <= 1.0
    ensures p + TrustWeight(reviews) == 1.0
  {
    var v := reviews as real;
    var m := Damping as real;
    SameDenominator(v, m, v + m);
    m / (v + m)
  }

  /** score = (v/(v+m))·R + (m/(v+m))·C. The two weights are non-negative and
      sum to one, so the score is a convex blend that lies between the rating
      and the prior: it sits above the prior by the trust weight's share of
      the rating's deviation, and short of the rating by the prior weight's
      share of it. */
  function Score(rating: real, reviews: nat): (s: real)
    ensures Min(rating, PriorRating) <= s <= Max(rating, PriorRating)
    ensures s - PriorRating == TrustWeight(reviews) * Deviation(rating)
    ensures rating - s == PriorWeight(reviews) * Deviation(rating)
  {
    var w := TrustWeight(reviews);
    var p := PriorWeight(reviews);
    Blend(w, p, rating, PriorRating, Deviation(rating));
    w * rating + p * PriorRating
  }

  // ---------------------------------------------------------------------------
  // Properties of the score
  // ---------------------------------------------------------------------------

  /** With no reviews the score is exactly the prior, whatever the rating. */
  lemma ScoreWithoutReviews(rating: real)
    ensures Score(rating, 0) == PriorRating
  {
  }

  /** A rating on the 0–5 scale yields a score on the 0–5 scale. */
  lemma ScoreInStarRange(rating: real, reviews: nat)
    requires 0.0 <= rating <= 5.0
    ensures 0.0 <= Score(rating, reviews) <= 5.0
  {
  }

  /** More reviews mean strictly more trust in the observed rating. */
  lemma TrustIncreasing(v1: nat, v2: nat)
    requires v1 < v2
    ensures TrustWeight(v1) < TrustWeight(v2)
  {
    var m := Damping as real;
    WeightIncreasing(v1 as real, v2 as real, m, v1 as real + m, v2 as real + m);
  }

  /** For a fixed rating the score moves strictly away from the prior, toward
      the rating, as reviews accumulate: up when the rating is above the prior,
      down when it is below, and not at all when they are equal. */
  lemma ScoreMonotone(rating: real, v1: nat, v2: nat)
    requires v1 < v2
    ensures rating > PriorRating ==> Score(rating, v1) < Score(rating, v2)
    ensures rating < PriorRating ==> Score(rating, v1) > Score(rating, v2)
    ensures rating == PriorRating ==> Score(rating, v1) == Score(rating, v2)
    ensures Abs(Score(rating, v2) - rating) <= Abs(Score(rating, v1) - rating)
  {
    TrustIncreasing(v1, v2);
    var s1, s2 := Score(rating, v1), Score(rating, v2);
    var d := Deviation(rating);
    if d > 0.0 {
      BlendsAbove(s1, s2, PriorRating, TrustWeight(v1), TrustWeight(v2), d);
    } else if d < 0.0 {
      BlendsBelow(s1, s2, PriorRating, TrustWeight(v1), TrustWeight(v2), d);
    }
  }

  /** How far the score still is from the rating after `reviews` reviews:
      the prior's weight times the rating's distance from the prior. */
  lemma DistanceToRating(rating: real, reviews: nat)
    ensures Abs(Score(rating, reviews) - rating) == PriorWeight(reviews) * Abs(Deviation(rating))
  {
    AbsScaled(PriorWeight(reviews), Deviation(rating));
  }

  /** The score tends to the rating as the review count grows: for every
      tolerance there is a count beyond which the score is within it. */
  lemma ScoreApproachesRating(rating: real, tolerance: real) returns (n: nat)
    requires tolerance > 0.0
    ensures forall v: nat :: v >= n ==> Abs(Score(rating, v) - rating) < tolerance
  {
    var m := Damping as real;
    var gap := Abs(Deviation(rating));
    var bound := m * gap / tolerance;
    n := bound.Floor + 1;
    forall v: nat | v >= n
      ensures Abs(Score(rating, v) - rating) < tolerance
    {
      DistanceToRating(rating, v);
      FarEnough(PriorWeight(v), v as real, m, v as real + m, gap, tolerance, bound);
    }
  }

  /** `round(x, 2)` as half-up rounding to a multiple of 0.01. */
  function Round2(x: real): (y: real)
    ensures Abs(y - x) <= 0.005
    ensures (y * 100.0).Floor as real == y * 100.0
  {
    var k := (x * 100.0 + 0.5).Floor;
    assert (k as real / 100.0) * 100.0 == k as real;
    k as real / 100.0
  }

  /** Rounding never reverses an order: a higher score never rounds lower. */
  lemma Round2Monotone(x: real, y: real)
    requires x <= y
    ensures Round2(x) <= Round2(y)
  {
    var a := (x * 100.0 + 0.5).Floor;
    var b := (y * 100.0 + 0.5).Floor;
    assert x * 100.0 <= y * 100.0;
    assert a as real <= x * 100.0 + 0.5 <= y * 100.0 + 0.5 < b as real + 1.0;
    assert a <= b;
    assert Round2(x) == a as real / 100.0;
    assert Round2(y) == b as real / 100.0;
  }

  /** The two worked examples of the scorer's documentation, evaluated
      exactly: 5.0 stars from 3 reviews scores 65/17 (shown as 3.82), and 4.6
      stars from 1200 reviews scores 203/45 (shown as 4.51). */
  lemma DocumentedExamples()
    ensures Score(5.0, 3) == 65.0 / 17.0 && Round2(Score(5.0, 3)) == 3.82
    ensures Score(4.6, 1200) == 203.0 / 45.0 && Round2(Score(4.6, 1200)) == 4.51
  {
  }
}

=== FILE: text.dfy ===
/** The handful of Python string operations the service relies on:
    `str.replace(c, "")`, `str.split(sep)`, `str.strip()`, `str.lower()` and
    the substring test `p in s`. Strings are sequences of characters. */
module Text {

  // ---------------------------------------------------------------------------
  // Removing a character: `s.replace(c, "")`
  // ---------------------------------------------------------------------------

  /** `s` with every occurrence of `c` deleted and every other character kept in order. */
  function Remove(s: string, c: char): (r: string)
    ensures c !in r
    ensures |r| <= |s|
    ensures forall x :: x != c ==> multiset(r)[x] == multiset(s)[x]
    ensures c !in s ==> r == s
  {
    if s == [] then []
    else
      var rest := Remove(s[1..], c);
      assert s == [s[0]] + s[1..];
      if s[0] == c then rest else [s[0]] + rest
  }

  /** Removal distributes over concatenation. */
  lemma {:induction false} RemoveAppend(a: string, b: string, c: char)
    ensures Remove(a + b, c) == Remove(a, c) + Remove(b, c)
    decreases |a|
  {
    if a == [] {
      assert a + b == b;
    } else {
      assert (a + b)[1..] == a[1..] + b;
      RemoveAppend(a[1..], b, c);
    }
  }

  // ---------------------------------------------------------------------------
  // Splitting and joining: `s.split(sep)` and `sep.join(parts)`
  // ---------------------------------------------------------------------------

  /** `sep.join(parts)`: the parts with one separator between neighbours. */
  function Join(parts: seq<string>, sep: char): string
  {
    if parts == [] then []
    else if |parts| == 1 then parts[0]
    else parts[0] + [sep] + Join(parts[1..], sep)
  }

  /** `s.split(sep)` with an explicit separator: always at least one piece
      (`"".split(",") == [""]`), no piece contains the separator, and joining
      the pieces back gives `s`. */
  function Split(s: string, sep: char): (parts: seq<string>)
    ensures |parts| >= 1
    ensures forall i :: 0 <= i < |parts| ==> sep !in parts[i]
    ensures Join(parts, sep) == s
    decreases |s|
  {
    if s == [] then [[]]
    else
      var rest := Split(s[1..], sep);
      if s[0] == sep then
        assert s == [] + [sep] + s[1..];
        [[]] + rest
      else
        var parts := [[s[0]] + rest[0]] + rest[1..];
        assert parts[1..] == rest[1..];
        assert s == [s[0]] + s[1..];
        parts
  }

  /** The inverse direction of the round trip: splitting a join of
      separator-free pieces gives the pieces back. */
  lemma {:induction false} SplitJoin(parts: seq<string>, sep: char)
    requires |parts| >= 1
    requires forall i :: 0 <= i < |parts| ==> sep !in parts[i]
    ensures Split(Join(parts, sep), sep) == parts
    decreases |parts|, |parts[0]|
  {
    if |parts| == 1 {
      SplitNoSeparator(parts[0], sep);
    } else if parts[0] == [] {
      assert Join(parts, sep) == [sep] + Join(parts[1..], sep);
      assert Join(parts, sep)[1..] == Join(parts[1..], sep);
      SplitJoin(parts[1..], sep);
      assert [[]] + parts[1..] == parts;
    } else {
      var p0 := parts[0];
      var shorter := [p0[1..]] + parts[1..];
      assert shorter[1..] == parts[1..];
      assert Join(parts, sep) == [p0[0]] + Join(shorter, sep);
      assert Join(parts, sep)[1..] == Join(shorter, sep);
      SplitJoin(shorter, sep);
      assert [p0[0]] + p0[1..] == p0;
    }
  }

  /** A string without the separator splits into itself alone. */
  lemma {:induction false} SplitNoSeparator(s: string, sep: char)
    requires sep !in s
    ensures Split(s, sep) == [s]
    decreases |s|
  {
    if s != [] {
      SplitNoSeparator(s[1..], sep);
      assert [s[0]] + s[1..] == s;
    }
  }

  // ---------------------------------------------------------------------------
  // Whitespace stripping: `s.strip()`
  // ---------------------------------------------------------------------------

  /** The characters for which Python's `str.isspace()` holds, which are the
      ones `str.strip()` removes. */
  predicate IsSpace(c: char)
  {
    || ('\U{9}' <= c <= '\U{D}')
    || ('\U{1C}' <= c <= '\U{20}')
    || c == '\U{85}' || c == '\U{A0}' || c == '\U{1680}'
    || ('\U{2000}' <= c <= '\U{200A}')
    || c == '\U{2028}' || c == '\U{2029}' || c == '\U{202F}' || c == '\U{205F}' || c == '\U{3000}'
  }

  predicate AllSpace(s: string)
  {
    forall i :: 0 <= i < |s| ==> IsSpace(s[i])
  }

  /** Every character of `s` from index `lo` up to `hi` is whitespace. */
  predicate SpaceBetween(s: string, lo: int, hi: int)
    requires 0 <= lo <= hi <= |s|
  {
    forall k :: lo <= k < hi ==> IsSpace(s[k])
  }

  /** `r` is the slice of `s` starting at `i`, and everything of `s` before
      and after that slice is whitespace. */
  predicate Trimmed(s: string, r: string, i: int)
  {
    && 0 <= i <= |s| - |r| && r == s[i..i + |r|]
    && SpaceBetween(s, 0, i) && SpaceBetween(s, i + |r|, |s|)
  }

  /** `s.strip()`: the middle of `s` left once the whitespace at both ends is cut
      off; what was cut is whitespace, and the result neither starts nor ends
      with whitespace. */
  function Strip(s: string): (r: string)
    ensures r == [] || (!IsSpace(r[0]) && !IsSpace(r[|r| - 1]))
    ensures exists i :: Trimmed(s, r, i)
    decreases |s|
  {
    if s != [] && IsSpace(s[0]) then
      var r := Strip(s[1..]);
      TrimmedFront(s, s[1..], r);
      r
    else if s != [] && IsSpace(s[|s| - 1]) then
      var r := Strip(s[..|s| - 1]);
      TrimmedBack(s, s[..|s| - 1], r);
      r
    else
      assert Trimmed(s, s, 0);
      s
  }

  /** What is trimmed from `t`, which is `s` without its leading whitespace
      character, is trimmed from `s`. */
  lemma TrimmedFront(s: string, t: string, r: string)
    requires s != [] && IsSpace(s[0]) && t == s[1..]
    requires exists i :: Trimmed(t, r, i)
    ensures exists i :: Trimmed(s, r, i)
  {
    var i :| Trimmed(t, r, i);
    assert forall k :: 0 <= k < |t| ==> t[k] == s[k + 1];
    assert r == s[i + 1..i + 1 + |r|];
    assert Trimmed(s, r, i + 1);
  }

  /** What is trimmed from `t`, which is `s` without its trailing whitespace
      character, is trimmed from `s`. */
  lemma TrimmedBack(s: string, t: string, r: string)
    requires s != [] && IsSpace(s[|s| - 1]) && t == s[..|s| - 1]
    requires exists i :: Trimmed(t, r, i)
    ensures exists i :: Trimmed(s, r, i)
  {
    var i :| Trimmed(t, r, i);
    assert forall k :: 0 <= k < |t| ==> t[k] == s[k];
    assert r == s[i..i + |r|];
    assert Trimmed(s, r, i);
  }

  /** Stripping leaves nothing exactly when the string is all whitespace. */
  lemma StripEmpty(s: string)
    ensures Strip(s) == [] <==> AllSpace(s)
  {
  }

  // ---------------------------------------------------------------------------
  // Lower-casing: `s.lower()`
  // ---------------------------------------------------------------------------

  function LowerChar(c: char): char
  {
    if 'A' <= c <= 'Z' then (c as int + 32) as char else c
  }

  /** `s.lower()` on the ASCII letters; every other character is kept. */
  function Lower(s: string): (r: string)
    ensures |r| == |s|
    ensures forall i :: 0 <= i < |r| ==> !('A' <= r[i] <= 'Z')
    ensures forall i :: 0 <= i < |s| && !('A' <= s[i] <= 'Z') ==> r[i] == s[i]
    ensures forall i :: 0 <= i < |s| && 'A' <= s[i] <= 'Z' ==> r[i] == (s[i] as int + 32) as char
  {
    seq(|s|, i requires 0 <= i < |s| => LowerChar(s[i]))
  }

  // ---------------------------------------------------------------------------
  // Substring test: `p in s`
  // ---------------------------------------------------------------------------

  /** `p` occurs in `s` starting at index `i`. */
  predicate OccursAt(p: string, s: string, i: int)
  {
    0 <= i && i + |p| <= |s| && s[i..i + |p|] == p
  }

  /** Python's `p in s` for strings, computed by scanning `s` from the left. */
  function Contains(s: string, p: string): bool
    decreases |s|
  {
    if |p| > |s| then false
    else if s[..|p|] == p then true
    else Contains(s[1..], p)
  }

  /** The scan succeeds exactly when `p` occurs in `s` at some index. */
  lemma {:induction false} ContainsOccurs(s: string, p: string)
    ensures Contains(s, p) <==> exists i :: OccursAt(p, s, i)
    decreases |s|
  {
    if |p| > |s| {
    } else if s[..|p|] == p {
      assert OccursAt(p, s, 0);
    } else {
      ContainsOccurs(s[1..], p);
      if Contains(s[1..], p) {
        var i :| OccursAt(p, s[1..], i);
        assert OccursAt(p, s, i + 1);
      } else {
        assert forall i :: OccursAt(p, s, i) ==> i > 0 && OccursAt(p, s[1..], i - 1);
      }
    }
  }
}

=== FILE: top_places.dfy ===
/** The `/top` route (`get_top_places`): parameter bounds, the price-filter
    check, the response cache in front of the upstream client, scoring,
    re-ranking, truncation and the response envelope. */
module TopPlaces {
  import opened Wrappers
  import opened Records
  import Text
  import Ranking
  import Upstream

  // ---------------------------------------------------------------------------
  // Parameter bounds declared on the route
  // ---------------------------------------------------------------------------

  /** The bounds the web framework enforces before the handler runs. */
  predicate InBounds(q: Query)
  {
    && -90.0 <= q.lat <= 90.0
    && -180.0 <= q.lng <= 180.0
    && 100 <= q.radius <= 40000
    && 1 <= q.limit <= 50
  }

  /** The status the framework answers with when a bound is violated. */
  const ValidationStatus: int := 422

  // ---------------------------------------------------------------------------
  // The price filter
  // ---------------------------------------------------------------------------

  const PriceTiers: set<string> := {"1", "2", "3", "4"}

  /** The pieces of a price filter: spaces removed, then split on commas. */
  function PricePieces(p: string): (parts: seq<string>)
    ensures |parts| >= 1
    ensures forall i :: 0 <= i < |parts| ==> ',' !in parts[i]
    ensures Text.Join(parts, ',') == Text.Remove(p, ' ')
  {
    Text.Split(Text.Remove(p, ' '), ',')
  }

  /** The handler's price check: an absent or empty filter passes; otherwise
      the set of its pieces must be a subset of the four tiers. */
  predicate PriceOk(price: Option<string>)
  {
    match price
    case None => true
    case Some(p) => p == [] || (set x | x in PricePieces(p)) <= PriceTiers
  }

  /** An independent description of the accepted filters: once spaces are
      removed, a tier digit, then any number of comma-and-tier-digit pairs. */
  predicate IsTierList(t: string)
  {
    && |t| % 2 == 1
    && forall i :: 0 <= i < |t| ==> if i % 2 == 0 then t[i] in "1234" else t[i] == ','
  }

  /** A non-empty price filter passes the check exactly when, spaces removed,
      it is a comma-separated list of tier digits. So an empty piece (`"1,,2"`,
      a trailing comma, a filter of spaces only) and any character other than
      the tier digits, commas and spaces make it fail. */
  lemma PriceOkIffTierList(p: string)
    requires p != []
    ensures PriceOk(Some(p)) <==> IsTierList(Text.Remove(p, ' '))
  {
    var t := Text.Remove(p, ' ');
    var parts := PricePieces(p);
    if PriceOk(Some(p)) {
      forall i | 0 <= i < |parts| ensures parts[i] in PriceTiers {
        assert parts[i] in (set x | x in parts);
      }
      JoinOfTiers(parts);
    }
    if IsTierList(t) {
      var pieces := TierPieces(t);
      TierPiecesJoin(t);
      Text.SplitJoin(pieces, ',');
      assert parts == pieces;
    }
  }

  /** A character outside the tier digits, commas and spaces is rejected. */
  lemma StrayCharacterRejected(p: string, i: nat)
    requires i < |p| && p[i] !in "1234, "
    ensures !PriceOk(Some(p))
  {
    PriceOkIffTierList(p);
    var t := Text.Remove(p, ' ');
    assert multiset(p)[p[i]] > 0;
    assert multiset(t)[p[i]] > 0;
    assert p[i] in t;
  }

  /** Joining single tier digits with commas gives a tier list. */
  lemma {:induction false} JoinOfTiers(parts: seq<string>)
    requires |parts| >= 1
    requires forall i :: 0 <= i < |parts| ==> parts[i] in PriceTiers
    ensures IsTierList(Text.Join(parts, ','))
    decreases |parts|
  {
    assert parts[0] in PriceTiers;
    if |parts| > 1 {
      JoinOfTiers(parts[1..]);
      var rest := Text.Join(parts[1..], ',');
      var t := Text.Join(parts, ',');
      assert t == parts[0] + [','] + rest;
      forall i | 0 <= i < |t|
        ensures if i % 2 == 0 then t[i] in "1234" else t[i] == ','
      {
        if i >= 2 {
          assert t[i] == rest[i - 2];
        }
      }
    }
  }

  /** Cuts a tier list into its one-character pieces. */
  function TierPieces(t: string): (parts: seq<string>)
    ensures |parts| >= 1
    decreases |t|
  {
    if |t| <= 1 then [t] else [t[..1]] + TierPieces(t[2..])
  }

  lemma {:induction false} TierPiecesJoin(t: string)
    requires IsTierList(t)
    ensures forall i :: 0 <= i < |TierPieces(t)| ==> TierPieces(t)[i] in PriceTiers
    ensures Text.Join(TierPieces(t), ',') == t
    decreases |t|
  {
    if |t| > 1 {
      var rest := t[2..];
      assert IsTierList(rest) by {
        forall i | 0 <= i < |rest|
          ensures if i % 2 == 0 then rest[i] in "1234" else rest[i] == ','
        {
          assert rest[i] == t[i + 2];
        }
      }
      TierPiecesJoin(rest);
      assert t[1] == ',';
      assert t == t[..1] + [','] + rest;
      assert t[..1] in PriceTiers by {
        assert t[0] in "1234";
        assert t[..1] == [t[0]];
      }
    } else {
      assert t[..1] == t;
      assert t[0] in "1234";
      assert t == [t[0]];
    }
  }

  // ---------------------------------------------------------------------------
  // Cache
  // ---------------------------------------------------------------------------

  /** The cache key: term, coordinates, radius, open-now flag and the price
      filter as given (empty when absent). The display limit is not part of it. */
  datatype Key = Key(term: string, lat: real, lng: real, radius: int, openNow: bool, price: string)

  function KeyOf(q: Query): Key
  {
    Key(q.term, q.lat, q.lng, q.radius, q.openNow, q.price.GetOr(""))
  }

  /** Two queries share a cache entry exactly when they agree on everything
      but the display limit, an absent price counting as the empty one. */
  lemma SameKey(q1: Query, q2: Query)
    ensures KeyOf(q1) == KeyOf(q2) <==>
              && q1.term == q2.term && q1.lat == q2.lat && q1.lng == q2.lng
              && q1.radius == q2.radius && q1.openNow == q2.openNow
              && q1.price.GetOr("") == q2.price.GetOr("")
  {
  }

  type Cache = map<Key, Response>

  /** What the cache policy may do between requests (time-to-live expiry,
      capacity eviction): drop some entries, and nothing else. */
  function Evict(cache: Cache, dropped: set<Key>): (c: Cache)
    ensures c.Keys == cache.Keys - dropped
    ensures forall k :: k in c ==> c[k] == cache[k]
  {
    cache - dropped
  }

  // ---------------------------------------------------------------------------
  // Building the response
  // ---------------------------------------------------------------------------

  /** Scores every business, sorts by descending score keeping upstream order
      among equal scores, keeps the first `limit`, and wraps them in the
      envelope. */
  function Build(q: Query, bs: seq<Business>): (r: Response)
    requires q.limit >= 1
    ensures r.term == q.term && r.lat == q.lat && r.lng == q.lng && r.radius == q.radius
    ensures r.attribution == Attribution
    ensures r.count == |r.results|
    ensures |r.results| == if q.limit < |bs| then q.limit else |bs|
    ensures Ranking.SortedDesc(r.results)
    ensures multiset(r.results) <= multiset(ScoreAll(bs))
    ensures forall x, y :: x in multiset(r.results) && y in multiset(ScoreAll(bs)) - multiset(r.results) ==> x.score >= y.score
    ensures forall k :: Ranking.WithScore(r.results, k) <= Ranking.WithScore(ScoreAll(bs), k)
  {
    var results := Ranking.Rank(ScoreAll(bs), q.limit);
    Response(q.term, q.lat, q.lng, q.radius, |results|, results, Attribution)
  }

  // ---------------------------------------------------------------------------
  // The request pipeline
  // ---------------------------------------------------------------------------

  /** What one request produces: the reply, the cache afterwards, and the
      request sent upstream (None when no call was made). */
  datatype Step = Step(reply: Result<Response, HttpError>, cache: Cache, sent: Option<Upstream.Request>)

  /** Handles one request. `yelp` stands for the upstream service: what the
      call with a given request would come back with. */
  function GetTopPlaces(q: Query, cache: Cache, yelp: Upstream.Request -> Upstream.Outcome): (s: Step)
    ensures s.sent.Some? <==> InBounds(q) && PriceOk(q.price) && KeyOf(q) !in cache
    ensures s.sent.Some? ==> s.sent.value == Upstream.Outbound(q)
    ensures s.sent.Some? ==> s.reply == Answer(q, yelp(s.sent.value))
    ensures !InBounds(q) ==> s.reply.Err? && s.reply.error.status == ValidationStatus
    ensures InBounds(q) && !PriceOk(q.price) ==> s.reply == Err(HttpError(400, InvalidPrice))
    ensures InBounds(q) && PriceOk(q.price) && KeyOf(q) in cache ==> s.reply == Ok(cache[KeyOf(q)])
    ensures s.reply.Err? ==> s.cache == cache
    ensures s.reply.Ok? ==> KeyOf(q) in s.cache && s.cache[KeyOf(q)] == s.reply.value
    ensures s.cache.Keys == cache.Keys || s.cache.Keys == cache.Keys + {KeyOf(q)}
    ensures forall k :: k in cache ==> k in s.cache && s.cache[k] == cache[k]
  {
    if !InBounds(q) then
      Step(Err(HttpError(ValidationStatus, InvalidParameters)), cache, None)
    else if !PriceOk(q.price) then
      Step(Err(HttpError(400, InvalidPrice)), cache, None)
    else
      var key := KeyOf(q);
      if key in cache then
        Step(Ok(cache[key]), cache, None)
      else
        var request := Upstream.Outbound(q);
        Store(cache, key, Answer(q, yelp(request)), request)
  }

  /** The upstream's answer to a cache miss: its error, or the response
      built from the businesses it returned. */
  function Answer(q: Query, outcome: Upstream.Outcome): (r: Result<Response, HttpError>)
    requires q.limit >= 1
    ensures r.Ok? <==> Upstream.Fetch(outcome).Ok?
    ensures r.Ok? ==> r.value == Build(q, Upstream.Fetch(outcome).value)
    ensures r.Err? ==> r.error == Upstream.Fetch(outcome).error
  {
    match Upstream.Fetch(outcome)
    case Err(e) => Err(e)
    case Ok(bs) => Ok(Build(q, bs))
  }

  /** Records a cache miss: an error leaves the cache as it was, a response
      is stored under `key`; every other entry is kept. */
  function Store(cache: Cache, key: Key, reply: Result<Response, HttpError>, request: Upstream.Request): (s: Step)
    requires key !in cache
    ensures s.reply == reply && s.sent == Some(request)
    ensures reply.Err? ==> s.cache == cache
    ensures reply.Ok? ==> s.cache == cache[key := reply.value]
    ensures s.cache.Keys == cache.Keys || s.cache.Keys == cache.Keys + {key}
    ensures forall k :: k in cache ==> k in s.cache && s.cache[k] == cache[k]
  {
    if reply.Err? then Step(reply, cache, Some(request))
    else
      var stored := cache[key := reply.value];
      assert stored.Keys == cache.Keys + {key};
      Step(reply, stored, Some(request))
  }

  /** A cache miss whose upstream call fails answers with the mapped
      upstream error (429, 502 or 504) and caches nothing: a failure is never
      turned into a result. */
  lemma MissPassesUpstreamError(q: Query, cache: Cache, yelp: Upstream.Request -> Upstream.Outcome)
    requires InBounds(q) && PriceOk(q.price) && KeyOf(q) !in cache
    requires Upstream.Fetch(yelp(Upstream.Outbound(q))).Err?
    ensures var s := GetTopPlaces(q, cache, yelp);
            && s.reply == Err(Upstream.Fetch(yelp(Upstream.Outbound(q))).error)
            && s.reply.error.status in {429, 502, 504}
            && s.cache == cache
  {
    Upstream.FetchErrorCategories(yelp(Upstream.Outbound(q)));
  }

  /** A request answered with a fresh response stores exactly that response,
      and it carries the ranking guarantees of `Build` for the businesses the
      upstream returned. */
  lemma MissStoresFreshResponse(q: Query, cache: Cache, yelp: Upstream.Request -> Upstream.Outcome)
    requires InBounds(q) && PriceOk(q.price) && KeyOf(q) !in cache
    requires Upstream.Fetch(yelp(Upstream.Outbound(q))).Ok?
    ensures var s := GetTopPlaces(q, cache, yelp);
            var bs := Upstream.Fetch(yelp(Upstream.Outbound(q))).value;
            && s.reply == Ok(Build(q, bs))
            && s.cache == cache[KeyOf(q) := s.reply.value]
            && s.reply.value.count <= q.limit
  {
  }

  /** Repeating a request that just succeeded is answered from the cache:
      the same response, no upstream call, and the cache untouched, whatever
      the upstream would now say. */
  lemma {:induction false} RepeatIsCacheHit(q: Query, cache: Cache, yelp1: Upstream.Request -> Upstream.Outcome, yelp2: Upstream.Request -> Upstream.Outcome)
    requires GetTopPlaces(q, cache, yelp1).reply.Ok?
    ensures var s1 := GetTopPlaces(q, cache, yelp1);
            var s2 := GetTopPlaces(q, s1.cache, yelp2);
            s2.reply == s1.reply && s2.sent == None && s2.cache == s1.cache
  {
    var s1 := GetTopPlaces(q, cache, yelp1);
    assert InBounds(q) && PriceOk(q.price);
    assert KeyOf(q) in s1.cache;
  }

  /** Once the entry of a query has been dropped from the cache, the next
      request for it calls upstream again. */
  lemma {:induction false} EvictedQueryRefetches(q: Query, cache: Cache, dropped: set<Key>, yelp: Upstream.Request -> Upstream.Outcome)
    requires InBounds(q) && PriceOk(q.price)
    requires KeyOf(q) in dropped
    ensures GetTopPlaces(q, Evict(cache, dropped), yelp).sent == Some(Upstream.Outbound(q))
  {
    assert KeyOf(q) !in Evict(cache, dropped);
  }

  /** An empty price filter behaves exactly like an absent one. */
  lemma EmptyPriceIsNoPrice(q: Query, cache: Cache, yelp: Upstream.Request -> Upstream.Outcome)
    requires q.price == Some("")
    ensures GetTopPlaces(q, cache, yelp) == GetTopPlaces(q.(price := None), cache, yelp)
  {
  }

  /** The cache key leaves out the display limit, so a request that differs
      from a cached one only in its limit is served the cached response, even
      when that response holds more results than the new limit allows. */
  lemma {:induction false} CachedResponseIgnoresLimit(q: Query, cache: Cache, yelp: Upstream.Request -> Upstream.Outcome, b: Business)
    requires InBounds(q) && PriceOk(q.price) && KeyOf(q) !in cache && q.limit >= 2
    requires yelp(Upstream.Outbound(q)) == Upstream.Status(200, "", Some([b, b]))
    ensures var s1 := GetTopPlaces(q, cache, yelp);
            var s2 := GetTopPlaces(q.(limit := 1), s1.cache, yelp);
            && s2.sent == None
            && s2.reply == s1.reply
            && s2.reply.Ok? && s2.reply.value.count == 2 > q.(limit := 1).limit
  {
    var q1 := q.(limit := 1);
    var s1 := GetTopPlaces(q, cache, yelp);
    MissStoresFreshResponse(q, cache, yelp);
    var r := s1.reply.value;
    assert r == Build(q, [b, b]);
    assert r.count == 2;
    assert KeyOf(q1) == KeyOf(q) && InBounds(q1) && q1.price == q.price;
    var s2 := GetTopPlaces(q1, s1.cache, yelp);
    assert s2.reply == Ok(s1.cache[KeyOf(q)]);
  }
}

=== FILE: upstream.dfy ===
/** The upstream client (`search_yelp`): how the outbound request is shaped
    from a query, and how the outcome of the one HTTP call becomes either the
    list of businesses or an HTTP error for the caller. The call itself is not
    modelled; its outcome is an input. */
module Upstream {
  import opened Wrappers
  import opened Records
  import Text

  /** The largest search radius the upstream accepts, in metres. */
  const MaxRadius: int := 40000

  /** The largest page the upstream returns. */
  const MaxPage: int := 50

  /** How many candidates are requested per displayed result. */
  const PoolFactor: int := 5

  /** The parameters sent upstream. `openNow` false stands for the parameter
      being left out; `price` None likewise. */
  datatype Request = Request(
    term: string,
    lat: real,
    lng: real,
    radius: int,
    limit: int,
    openNow: bool,
    price: Option<string>)

  function MinInt(a: int, b: int): int { if a <= b then a else b }

  /** Shapes the outbound request: the radius is capped at the upstream
      maximum, the pool asks for five candidates per displayed result capped at
      the upstream page size, and a non-empty price filter is forwarded with its
      spaces removed. */
  function Outbound(q: Query): (r: Request)
    ensures r.term == q.term && r.lat == q.lat && r.lng == q.lng && r.openNow == q.openNow
    ensures r.radius <= MaxRadius && r.radius <= q.radius
    ensures r.radius == q.radius || r.radius == MaxRadius
    ensures r.limit <= MaxPage && r.limit <= PoolFactor * q.limit
    ensures r.limit == PoolFactor * q.limit || r.limit == MaxPage
    ensures r.price.Some? <==> q.price.Some? && q.price.value != []
    ensures r.price.Some? ==> ' ' !in r.price.value
    ensures r.price.Some? ==> forall c :: c != ' ' ==> multiset(r.price.value)[c] == multiset(q.price.value)[c]
    ensures r.price.Some? ==> r.price.value == Text.Remove(q.price.value, ' ')
  {
    Request(
      q.term, q.lat, q.lng,
      MinInt(q.radius, MaxRadius),
      MinInt(q.limit * PoolFactor, MaxPage),
      q.openNow,
      if q.price.Some? && q.price.value != [] then Some(Text.Remove(q.price.value, ' ')) else None)
  }

  /** For every display limit the route admits, the pool requested upstream
      is at least as large as the limit and at most one upstream page; for a
      radius the route admits, the radius is forwarded unchanged. */
  lemma PoolCoversLimit(q: Query)
    requires 1 <= q.limit <= 50 && q.radius <= 40000
    ensures q.limit <= Outbound(q).limit <= MaxPage
    ensures Outbound(q).radius == q.radius
    ensures q.limit <= 10 ==> Outbound(q).limit == PoolFactor * q.limit
    ensures q.limit > 10 ==> Outbound(q).limit == MaxPage
  {
  }

  /** What came back from the one outbound call. `businesses` is the
      `businesses` field of the decoded JSON body, None when the field is
      absent. */
  datatype Outcome =
    | Status(code: int, text: string, businesses: Option<seq<Business>>)
    | Timeout
    | TransportFailure(reason: string)

  /** The longest diagnostic excerpt quoted from an upstream error body. */
  const ExcerptLength: nat := 200

  /** `text[:200]`: the first 200 characters of the body, or all of it. */
  function Excerpt(text: string): (e: string)
    ensures |e| <= ExcerptLength
    ensures e <= text
    ensures |text| <= ExcerptLength ==> e == text
    ensures |text| > ExcerptLength ==> |e| == ExcerptLength
  {
    if |text| <= ExcerptLength then text else text[..ExcerptLength]
  }

  /** Maps the outcome of the outbound call to the businesses or an error:
      429 is passed on as 429, any other status but 200 becomes 502 quoting the
      status and a bounded excerpt of the body, a timeout becomes 504 and any
      other transport failure 502. A 200 yields the `businesses` field, or
      nothing when it is absent. */
  function Fetch(o: Outcome): (r: Result<seq<Business>, HttpError>)
    ensures r.Ok? <==> o.Status? && o.code == 200
    ensures r.Ok? ==> r.value == o.businesses.GetOr([])
    ensures r.Err? ==> r.error.status in {429, 502, 504}
    ensures o.Status? && o.code != 200 && o.code != 429 ==>
              r.Err? && r.error.detail.UpstreamStatus? && r.error.detail.code == o.code
              && r.error.detail.excerpt <= o.text && |r.error.detail.excerpt| <= ExcerptLength
    ensures o.Status? && o.code != 200 && o.code != 429 ==>
              r.Err? && r.error.detail == UpstreamStatus(o.code, Excerpt(o.text))
  {
    match o
    case Status(code, text, businesses) =>
      if code == 429 then Err(HttpError(429, RateLimited))
      else if code != 200 then Err(HttpError(502, UpstreamStatus(code, Excerpt(text))))
      else Ok(businesses.GetOr([]))
    case Timeout => Err(HttpError(504, UpstreamTimeout))
    case TransportFailure(reason) => Err(HttpError(502, RequestFailed(reason)))
  }

  /** The three error categories are told apart by status alone: 429 exactly
      for a rate-limited upstream, 504 exactly for a timeout, and 502 exactly
      for every other failure. */
  lemma FetchErrorCategories(o: Outcome)
    requires Fetch(o).Err?
    ensures Fetch(o).error.status == 429 <==> o.Status? && o.code == 429
    ensures Fetch(o).error.status == 504 <==> o.Timeout?
    ensures Fetch(o).error.status == 502 <==> o.TransportFailure? || (o.Status? && o.code != 200 && o.code != 429)
  {
  }
}

=== FILE: wrappers.dfy ===
/** Option and Result, used throughout the model. */
module Wrappers {

  /** An optional value: Python's `None` or a present value. */
  datatype Option<+T> = None | Some(value: T) {

    /** The held value, or `default` when there is none (Python's `x or default`
        for values whose only falsy form is `None`). */
    function GetOr(default: T): T {
      match this
      case Some(v) => v
      case None => default
    }
  }

  /** The outcome of a step that either produces a value or fails with an error. */
  datatype Result<+T, +E> = Ok(value: T) | Err(error: E)
}
